=== FILE: README.md ===
# Confirmation gating of the vane_web3 node, in Dafny

The vane_web3 node is a safety layer between a wallet and a chain. A receiver's node confirms
a transfer by signing its own address (receiver confirmation), and the node checks that
signature when the receiver's response arrives over the swarm. When the sender confirms, an
unsigned record has its receiver address checked against its multi-id hash, and only a
matching record gets a payload built for signing; nothing is broadcast at that point. A signed
record goes through the sender check (sender confirmation), and only a record passing that
check reaches `submit_tx`. The sender-confirmed handler never reads the receiver's
signature: ordering the two confirmations is up to the rpc layer that hands records back,
which is outside this model.

This project models the decision layer of that pipeline. For one transaction it decides
whether funds may be submitted, whether a payload is built, or whether a failure is recorded.
Every handler is a pure function from a transaction record, plus the outside world, to an
ordered list of effects and an exit:

- effects: status marks, forwards to the rpc layer, rows written to the local transaction
  table, registry entries written to the local saved-peer table, calls to `create_tx` /
  `submit_tx`, broadcasts, dials, peer requests and swarm responses;
- exit: completed, an error returned through `?`, a panic, or blocked for good on a lock.

Modules:

- `Types` (`types.dfy`): the `TxStateMachine` record, networks, statuses, registry entries,
  errors, panic reasons, and the three-way `Step` result.
- `Utf8` (`utf8.dfy`): `str::as_bytes` as UTF-8 encoding, with its concatenation law.
- `Externals` (`externals.dfy`): the collaborators the core calls but does not implement.
  These are key and signature parsing, Keccak-256, ECDSA, Ed25519, BLAKE2b-256, the EVM
  transaction builder, the raw-transaction broadcast, the saved-peer table, the remote
  registry, and the libp2p parsers. Each is a record of total functions, so every result
  holds for every choice of them.
- `TxProcessing` (`tx_processing.dfy`): the worker steps in `node/src/tx_processing.rs`:
  - `validate_receiver_sender_address`;
  - `validate_multi_id`;
  - `create_tx`, the Ethereum/BNB field update;
  - `submit_tx`, the checks made before the network call.
- `Effects` (`effects.dfy`): the effect vocabulary and the filters "rows written" and
  "records forwarded".
- `MainService` (`main_service.dfy`): the handlers of `node/src/lib.rs`:
  - the sender-confirmed handler;
  - the Response arm of the swarm handler;
  - genesis peer resolution;
  - the status dispatch and its loop.
- `Properties` (`properties.dfy`): the gating promises, per handler and over the whole
  update loop.

As written, the sender-confirmed handler never reaches `submit_tx` for a record that passes
the sender check. It waits forever for the processing worker's lock, which it already holds
(see "## Findings"). The model keeps both versions:
- the handler as written: `MainService.HandleSenderConfirmedAsWritten` and the loop built on
  it;
- the corrected handler, which releases the lock once the check has returned:
  `MainService.HandleSenderConfirmed` and everything built on it.

The results below are about the corrected handler.

The main result is `Properties.LoopSubmissionsGated`. Across any sequence of records handled
by the update loop, `submit_tx` is only called on a record that is signed and passes the
sender check. Every broadcast directly follows such a call and carries that record's payload
and signature. Each failed gate leaves its own mark or failure row and submits nothing:

- sender check failed: `SenderGateFailure`;
- multi-id mismatch: `MultiIdMismatch`;
- receiver check failed: `SwarmResponseOutcome`;
- submission error: `SubmissionResult`.

Behaviour of the code that the model keeps as written:

- On both the receiver path and the sender path, the verifying key is parsed from
  `receiver_address` (`tx_processing.rs:126`, `:147`). So the sender's signature is checked
  against the receiver's key. The code's own comments and messages describe this path as
  verifying the original sender: `// who is Sender` (`tx_processing.rs:99`), "original sender
  didnt signed" (`:104`), and "Non original sender signed" (`lib.rs:421-423`). The model
  follows the code.
- `create_tx` passes the UTF-8 bytes of `receiver_address` to `Address::from_slice`, which
  panics unless they are exactly 20 bytes long (`tx_processing.rs:211`, `:233`). The model
  makes this panic explicit (`PanicReason.AddressLength`). `TxProcessing.CreateTxAsciiAddress`
  shows that an ASCII address produces a payload only when it is 20 characters long.
- Every `todo!()` (Polkadot everywhere, Solana in `create_tx` and `submit_tx`, the
  `NetConfirmed` dispatch) is a `Panic(Unimplemented)` outcome, not a precondition. Each
  panic is reached only on the inputs that reach it in the code. For example, the receiver
  check with no receiver signature returns `Err` even on Polkadot.

## Model

| member | source | states |
|---|---|---|
| `TxProcessing.VerifyEcdsa` | node/src/tx_processing.rs:125-145 | Ethereum/BNB accept exactly when all four conditions hold: the key parses, the signature parses, it verifies over Keccak-256 of the message, and the recovered key equals the parsed key. A key that does not parse fails first; then a signature that does not parse. No panic. |
| `TxProcessing.VerifyEd25519` | node/src/tx_processing.rs:146-159 | Solana accepts exactly when key and signature parse and Ed25519 verification over the raw message bytes holds. Key failures come before signature failures. |
| `TxProcessing.ValidateReceiverSenderAddress` | node/src/tx_processing.rs:83-162 | `who == "Receiver"` with no receiver signature gives `Err(ReceiverDidNotSign)`. Any other `who` takes the sender path, which gives `Err(SenderDidNotSign)` without `signed_call_payload`. It is `Ok` exactly when the selected signature over the selected message is accepted for the network with the key from `receiver_address`: the receiver address on the receiver path, the sender address on the sender path. It panics exactly on Polkadot with a signature present. |
| `TxProcessing.AbsentSignatureIgnoresCrypto` | node/src/tx_processing.rs:88-104 | With the selected signature absent, the verdict is an error and is the same under every choice of cryptography, so no crypto is consulted. |
| `TxProcessing.ValidationReadsSelectedFields` | node/src/tx_processing.rs:88-108 | The verdict depends only on the network, the receiver address, and the selected signature and message. |
| `TxProcessing.ValidateMultiId` | node/src/tx_processing.rs:165-173 | True exactly when BLAKE2b-256 of the bytes of `sender ++ receiver` equals the stored multi-id. The body hashes the two byte strings joined, as the code does. |
| `TxProcessing.MultiIdIsOrderSensitive` | node/src/tx_processing.rs:166-169 | Order matters: whenever the two orders give different bytes, some hash function accepts the record and rejects it with sender and receiver exchanged. |
| `Utf8.AsBytesAppend` | node/src/tx_processing.rs:167-168 | The bytes of a concatenation are the concatenation of the bytes. This is why extending the sender's bytes with the receiver's hashes the joined address string. |
| `TxProcessing.CreateTx` | node/src/tx_processing.rs:181-260 | On Ethereum/BNB it panics exactly when the address bytes are not 20 long. Otherwise it is `Ok` exactly when the unsigned build and the EIP-7702 conversion both succeed. A failed build is `Err(UnsignedBuildFailed)`, then a failed conversion is `Err(Eip7702ConversionFailed)`. `Ok` returns the input with only `call_payload` changed, now `Some` of the EIP-7702 encoding of a request to the receiver address bytes for the record's amount. The request has chain id 56 on BNB and none on Ethereum. Other networks panic as unimplemented. |
| `TxProcessing.BuiltPayloadIsSubmitted` | node/src/tx_processing.rs:228-350 | Once signed, a record built by `create_tx` gets past `submit_tx`'s checks. It is submitted exactly when the network accepts the built EIP-7702 encoding with that signature. |
| `TxProcessing.CreateTxIdempotent` | node/src/tx_processing.rs:210-253 | Building a payload ignores any payload already present, so building twice gives the same record as building once. |
| `TxProcessing.CreateTxAsciiAddress` | node/src/tx_processing.rs:211-212 | For an ASCII receiver address on an EVM network, `create_tx` panics exactly when the address is not 20 characters long. |
| `TxProcessing.SubmitTx` | node/src/tx_processing.rs:263-383 | On Ethereum/BNB, a missing signature gives `Err(PayloadNotSigned)`. A signed record without a payload gives `Err(CallPayloadMissing)`. `Ok(hash)` only when the network returned that hash for the record's payload and signature. A signed record with a payload that the network refuses gives `Err(SubmissionFailed)`. On Ethereum/BNB it never panics: every failure is an `Err`. Other networks panic as unimplemented. |
| `TxProcessing.SubmitTxChecksBeforeNetwork` | node/src/tx_processing.rs:312-350 | A record without signature or payload gets the same non-`Ok` outcome whatever the network would do, so it fails before any network call. |
| `MainService.BroadcastIffNetworkConsulted` | node/src/tx_processing.rs:312-350 | A broadcast is recorded for a record exactly when the network can change what `submit_tx` answers on it: some two networks give different results. Otherwise the checks before the network call decide the answer. |
| `MainService.Submission` | node/src/lib.rs:388-418 | After the `submit_tx` call: success marks the record passed with the hash, forwards it, and writes a success row with that hash, the amount and the network. An error marks it failed, forwards it, and writes nothing. Broadcasts only follow the call. |
| `MainService.HandleSigned` | node/src/lib.rs:383-427 | Corrected branch, with the worker's lock released after the check. A signed record is submitted only if it passes the sender check, and then `submit_tx` is called on it first. Nothing else is submitted, and it never ends with an `Err`. |
| `MainService.HandleSignedAsWritten` | node/src/lib.rs:385-393 | As written: a signed record blocks, with nothing done, exactly when the sender check returns `Ok`. Nothing is ever submitted. A failed check or a panic ends as in the corrected branch. |
| `MainService.HandleUnsigned` | node/src/lib.rs:428-466 | An unsigned record never reaches submission. `create_tx` is called on it exactly when its multi-id matches. When it is called and succeeds, the effects are exactly that call and one forward of the record `create_tx` built, and the handler completes. When it fails, the effects are that call alone and the handler returns `create_tx`'s error. |
| `MainService.HandleSenderConfirmed` | node/src/lib.rs:376-469 | Corrected handler. Every `submit_tx` call is on this record and only after it is signed and passes the sender check. Every broadcast directly follows that call. A gated EVM record is submitted, and an unsigned one never is. |
| `MainService.HandleSenderConfirmedAsWritten` | node/src/lib.rs:376-469 | As written: never submits. It blocks exactly when the record is signed and passes the sender check; otherwise it behaves as the corrected handler. |
| `MainService.HandleSwarmResponse` | node/src/lib.rs:175-216 | A receiver response never submits. When it completes, the record is forwarded with the outbound request id set. Rows are written exactly when the receiver check fails, and then the record is marked failed and the failure row is among them. |
| `MainService.FindPeer` | node/src/lib.rs:287-300 | Returns the index of the first registry entry whose accounts include the receiver address, or none when no entry does. |
| `MainService.HandleGenesis` | node/src/lib.rs:232-359 | With no saved peer and no registry list, it errs with `PeerListUnavailable`. Peer resolution never submits, writes no transaction row, and forwards nothing to the rpc layer. |
| `MainService.HandleRpcTxUpdate` | node/src/lib.rs:481-516 | Dispatch by status: only sender-confirmed records can lead to a submission, and every outcome stays gated. `NetConfirmed` panics as unimplemented. Statuses other than the four named ones do nothing. |
| `MainService.StopAtFailure` | node/src/lib.rs:482-514 | The loop's `?` semantics: the result is a prefix of the handlers' outcomes. Every outcome except the last completed. It is shorter than the input only when its last outcome did not complete. |
| `MainService.HandleRpcTxUpdates` | node/src/lib.rs:481-516 | The loop handles records in order, each with the handler for its status. It stops right after the first record whose handler errs or panics, and every earlier record completed. |
| `Properties.SubmitIffSenderGatePassed` | node/src/lib.rs:383-394 | In the corrected handler, `submit_tx` is called on a sender-confirmed record exactly when it is signed and the sender check accepts it. No other record is submitted. |
| `Properties.SenderGateFailure` | node/src/lib.rs:420-425 | A signed record failing the sender check is marked sender-confirmation-failed and forwarded once. Nothing is submitted and no row is written. |
| `Properties.MultiIdMismatch` | node/src/lib.rs:430-448 | An unsigned record with a wrong multi-id writes exactly one row: empty hash, same amount and network, `success` false. The record is forwarded unchanged, `create_tx` is not called, and nothing is submitted. |
| `Properties.SubmissionIgnoresReceiverConfirmation` | node/src/lib.rs:383-394 | A record the receiver never signed, so failing the receiver check, still has `submit_tx` called on it when it passes the sender check on an EVM network: the handler reads only the sender's signature. |
| `Properties.MultiIdMatch` | node/src/lib.rs:450-465 | An unsigned record with a matching multi-id gets `create_tx`. When that succeeds, the one record forwarded is exactly the record `create_tx` returned, which differs from the input only by its new payload, and no row is written. When it errs, the handler errs and forwards nothing. |
| `Properties.GatedRecordIsSubmitted` | node/src/lib.rs:383-394 | In the corrected handler, a record passing the sender check goes straight to submission. |
| `Properties.SubmissionOrder` | node/src/lib.rs:395-411 | On success, the passed mark with the hash, the forward, and the success row with the same hash come consecutively in that order. |
| `Properties.SubmitEffectsFilters` | node/src/lib.rs:388-394 | Calling `submit_tx` and broadcasting neither write a row nor forward. |
| `Properties.AfterSubmitFilters` | node/src/lib.rs:395-417 | After the call, success writes exactly the success row with the hash. Error and panic write nothing. The record is forwarded once unless the call panicked. |
| `Properties.SubmissionFilters` | node/src/lib.rs:388-418 | An EVM submission completes. It forwards the record exactly once and writes only what its outcome writes. |
| `Properties.SubmissionResult` | node/src/lib.rs:395-417 | In the corrected handler, for a gated EVM record, success writes exactly one success row carrying the submitted hash. An error marks the record failed and writes nothing. Either way the record is forwarded exactly once. |
| `Properties.SwarmResponseOutcome` | node/src/lib.rs:185-215 | A response is forwarded exactly once with its outbound id. If the receiver check passes, it is marked passed and no row is written. Otherwise it is marked failed and exactly the failure row is written. Nothing is submitted. |
| `Properties.GenesisWithoutClaimingPeer` | node/src/lib.rs:286-354 | With no saved peer and no registry entry claiming the receiver address, nobody is dialed or sent anything. |
| `Properties.GenesisContactsFirstClaimingPeer` | node/src/lib.rs:286-351 | Without a saved peer, any contact goes to the first registry entry claiming the receiver address. That peer is saved, dialed and sent the record, in that order. |
| `Properties.GenesisUsesSavedPeer` | node/src/lib.rs:252-274 | With a saved peer, an address that does not parse gives `Err(MultiAddrInvalid)`, then an id that does not parse gives `Err(PeerIdInvalid)`. It completes exactly when both parse, and then that peer is dialed and sent the record, and nothing else happens. |
| `Properties.GenesisFromRegistry` | node/src/lib.rs:286-351 | Without a saved peer, the first registry entry claiming the receiver address decides the outcome, in the code's order. A missing multi-address panics; one that does not parse errs. Then a missing peer id panics; one that does not parse errs. Otherwise the entry is saved, dialed and sent the record, and the handler completes. |
| `Properties.DispatchByStatus` | node/src/lib.rs:484-513 | A receiver-confirmed record is answered on its own inbound request, and panics without one. Genesis records go to peer resolution, which writes no transaction row and forwards nothing to the rpc layer. Sender-confirmed records go to the sender-confirmed handler. Only they can submit. |
| `Properties.FlattenGated` | node/src/lib.rs:482-514 | Running handlers whose effects are each gated, one after another, gives gated effects overall: a broadcast never begins a handler's effects. |
| `Properties.LoopSubmissionsGated` | node/src/lib.rs:481-516 | Over all records the loop handles, every `submit_tx` call is on a signed record passing the sender check, and every broadcast directly follows such a call. |
| `Properties.LoopSubmitsOnlySenderConfirmed` | node/src/lib.rs:484-513 | Any record the loop submits arrived with status sender-confirmed and is the record submitted. |
| `MainService.HandleRpcTxUpdateAsWritten` | node/src/lib.rs:484-513 | As written: the dispatch never submits. It blocks exactly on a sender-confirmed record that passes the sender check, and is otherwise the corrected dispatch. |
| `MainService.HandleRpcTxUpdatesAsWritten` | node/src/lib.rs:481-516 | As written: the loop handles records in order with the as-written dispatch, and stops right after the first record that does not complete. |
| `Properties.HeldGuardBlocksSubmission` | node/src/lib.rs:385-393 | For a signed EVM record passing the sender check, the handler as written blocks with no effects. The corrected handler calls `submit_tx` on it first. |
| `Properties.StopAtFailureAfterCompleted` | node/src/lib.rs:482-514 | A run of handlers that all complete never ends the loop: the loop cut of that run followed by more outcomes is the run itself, then the cut of what follows. |
| `Properties.LoopResumesAfterCompleted` | node/src/lib.rs:482-514 | `?` only ends the loop on a handler that fails: when every record of a run completes, the loop's effects are that run's effects followed by the effects of the loop over the records after it. |
| `Properties.FlattenAppend` | node/src/lib.rs:482-514 | The effects of the loop's records taken in two runs are the effects of the first run followed by those of the second. |
| `Properties.FlattenNoSubmission` | node/src/lib.rs:482-514 | Handlers that each submit nothing submit nothing when run one after another. |
| `Properties.HeldGuardStallsLoop` | node/src/lib.rs:481-516 | As written, the update loop never submits. It handles no record after the first sender-confirmed record that passes the sender check, and when it reaches that record it blocks there. |

## Findings

| source | as written | input that shows it | evidently intended | confidence | as-written member | corrected member |
|---|---|---|---|---|---|---|
| node/src/lib.rs:385-393 | The `tokio::sync::Mutex` guard of the processing worker is taken in the `if let` scrutinee at :385 and lives through the then-block. The then-block locks the same non-reentrant mutex again at :388-391 to call `submit_tx`, so the handler waits forever. The update loop then stops, and so does every other task that needs the worker. | Any signed, sender-confirmed Ethereum/BNB record whose sender check passes (`Properties.HeldGuardBlocksSubmission`, `Properties.HeldGuardStallsLoop`) | Release the guard once the check returns, then submit and record the result, as lib.rs:395-417 describes | high; not executed | `MainService.HandleSenderConfirmedAsWritten` | `MainService.HandleSenderConfirmed` |

## Left out

- Cryptography is uninterpreted: Keccak-256, secp256k1 ECDSA verify and recover, Ed25519
  (section 5.1.7 of RFC 8032), BLAKE2b-256 (section 3.3 of RFC 7693), and parsing keys and
  signatures from text and bytes. Each is a field of `Externals.Crypto`.
- EVM transaction building, EIP-7702 conversion and RLP encoding are the opaque functions of
  `Externals.Codec`.
- In `submit_tx`, decoding the payload, converting the signature and `send_raw_transaction`
  are folded into one `Externals.Chain.sendRawTransaction`. `None` stands for any of their
  failures.
- Channel sends, database writes, dialing, `send_request` and `send_response` can each fail
  through `?`. The model assumes these I/O calls succeed. Only errors that come from the
  decision logic become `Exit.Failed`.
- The status-changing methods (`recv_confirmation_passed`, `tx_submission_passed`, ...) and the
  full `TxStatus` enum live in the `primitives` crate, which is not part of this model. Marks
  are events, and the record forwarded after a mark is shown as it was before the mark.
  Statuses other than the four the dispatcher names are `TxStatus.Other`.
- The conversion of a registry entry into a `PeerRecord` is also in `primitives`, so
  `RecordSavedPeer` carries the entry itself.
- The Request arm of the swarm handler is left out, and so are SCALE decoding of swarm
  messages (which panics on bad input) and the `DefaultHasher` hashing of request ids. The
  outbound id is an input to `HandleSwarmResponse`.
- Tasks running concurrently are not interleaved. Once the sender-confirmed handler as written
  blocks holding the processing worker's lock, the swarm handler's receiver check
  (`lib.rs:188-191`) shares that worker (`lib.rs:558`, `:591`) and would wait as well. The
  model shows the blocking only within the update loop. Apart from that one double lock, the
  handlers' locking has no effect on their decisions.
- The 3-second sleep after dialing, the channels themselves, the rpc server,
  the Airtable client, `DbWorker`, `TaskManager`, and `new` / `run` / `e2e_new` / `e2e_run`
  with the random port are plumbing with no decisions in them.
- `handle_net_confirmed_tx_state` is only `todo!()`. The dispatcher's `NetConfirmed` branch
  panics before reaching it, and the model shows that panic.
- `sim_confirm_network` returns `Ok` without doing anything (`tx_processing.rs:176-178`) and
  nothing calls it in the core. The code has no batching, retries with backoff, deadlines or
  fee re-validation, so none of these are modelled. The failed-submission message promises a
  resubmission that no code performs.
- The width of `amount` is defined in `primitives`; the model uses an unbounded `nat`.
- Logging and error-message texts are left out. The errors are distinct constructors of
  `Types.Error`.
- `integration-test/src/lib.rs` is a two-node networking test plus empty tests. It asserts
  nothing about this logic.

=== FILE: effects.dfy ===
/**
 What a handler of the main service does, as an ordered list of effects: status marks on the
 record (whose internals live in the `primitives` crate and are not modelled), forwards to
 the rpc layer, writes to the local transaction table, calls into the processing worker,
 and peer-to-peer actions.
 */
module Effects {
  import opened Types

  /** The status-changing methods of the transaction record, as events. */
  datatype Mark =
    | RecvConfirmationPassed
    | RecvConfirmationFailed
    | SenderConfirmationFailed
    | TxSubmissionPassed(hash: Hash32)
    | TxSubmissionFailed

  /** A row of the local transaction table. */
  datatype DbTxStateMachine = DbTxStateMachine(txHash: Bytes, amount: nat, network: ChainSupported, success: bool)

  datatype Effect =
    /** Apply a status change to the record being handled; later `SendToRpc` effects carry it. */
    | MarkTx(mark: Mark)
    | SendToRpc(tx: TxStateMachine)
    | UpdateFailedTx(record: DbTxStateMachine)
    | UpdateSuccessTx(record: DbTxStateMachine)
    /** `create_tx` is called on the record. */
    | CallCreateTx(tx: TxStateMachine)
    /** `submit_tx` is called on the record. */
    | CallSubmitTx(tx: TxStateMachine)
    /** The signed payload is handed to the network. */
    | Broadcast(network: ChainSupported, payload: Bytes, signature: Bytes)
    | RecordSavedPeer(entry: Discovery)
    | Dial(peerId: string, multiAddr: string)
    | SendRequest(peerId: string, multiAddr: string, tx: TxStateMachine)
    | SendResponse(inboundReqId: u64, tx: TxStateMachine)
  {
    predicate IsDbWrite() {
      UpdateFailedTx? || UpdateSuccessTx?
    }

    /** A step towards moving funds: calling `submit_tx` or broadcasting. */
    predicate IsSubmission() {
      CallSubmitTx? || Broadcast?
    }
  }

  /**
   How a handler ends: normally, with an error returned through `?`, with a panic, or never,
   because it waits for a lock that is already held.
   */
  datatype Exit = Completed | Failed(error: Error) | Panicked(reason: PanicReason) | Blocked

  datatype Outcome = Outcome(effects: seq<Effect>, exit: Exit)

  /** The rows written to the local transaction table, in order. */
  function DbRecords(effects: seq<Effect>): (r: seq<DbTxStateMachine>)
    ensures |r| <= |effects|
    ensures forall i :: 0 <= i < |effects| && effects[i].IsDbWrite() ==> effects[i].record in r
  {
    if |effects| == 0 then []
    else
      var rest := DbRecords(effects[1..]);
      assert forall i :: 1 <= i < |effects| ==> effects[i] == effects[1..][i - 1];
      if effects[0].IsDbWrite() then [effects[0].record] + rest else rest
  }

  /** The records forwarded to the rpc layer, in order. */
  function RpcSends(effects: seq<Effect>): (r: seq<TxStateMachine>)
    ensures |r| <= |effects|
    ensures forall i :: 0 <= i < |effects| && effects[i].SendToRpc? ==> effects[i].tx in r
  {
    if |effects| == 0 then []
    else
      var rest := RpcSends(effects[1..]);
      assert forall i :: 1 <= i < |effects| ==> effects[i] == effects[1..][i - 1];
      if effects[0].SendToRpc? then [effects[0].tx] + rest else rest
  }

  /** Filtering distributes over concatenation. */
  lemma {:induction false} DbRecordsAppend(a: seq<Effect>, b: seq<Effect>)
    ensures DbRecords(a + b) == DbRecords(a) + DbRecords(b)
  {
    if |a| == 0 {
      assert a + b == b;
    } else {
      assert (a + b)[1..] == a[1..] + b;
      DbRecordsAppend(a[1..], b);
    }
  }

  lemma {:induction false} RpcSendsAppend(a: seq<Effect>, b: seq<Effect>)
    ensures RpcSends(a + b) == RpcSends(a) + RpcSends(b)
  {
    if |a| == 0 {
      assert a + b == b;
    } else {
      assert (a + b)[1..] == a[1..] + b;
      RpcSendsAppend(a[1..], b);
    }
  }

  /** Nothing was written to the local transaction table. */
  predicate NoDbWrite(effects: seq<Effect>) {
    forall i :: 0 <= i < |effects| ==> !effects[i].IsDbWrite()
  }

  /** Both filters peel one effect off the front of a list. */
  lemma FiltersCons(e: Effect, rest: seq<Effect>)
    ensures DbRecords([e] + rest) == (if e.IsDbWrite() then [e.record] else []) + DbRecords(rest)
    ensures RpcSends([e] + rest) == (if e.SendToRpc? then [e.tx] else []) + RpcSends(rest)
  {
  }

  /** No step towards moving funds was taken. */
  predicate NoSubmission(effects: seq<Effect>) {
    forall i :: 0 <= i < |effects| ==> !effects[i].IsSubmission()
  }
}

=== FILE: externals.dfy ===
/**
 The collaborators the core calls but does not implement. Each is a record of total
 functions, so that everything proved about the core holds for every choice of them:
 signature schemes and hashes, transaction encoding, the network broadcast, and the
 peer registries.
 */
module Externals {
  import opened Types

  datatype EcdsaPublic = EcdsaPublic(bytes: Bytes)
  datatype EcdsaSignature = EcdsaSignature(bytes: Bytes)
  datatype EdPublic = EdPublic(bytes: Bytes)
  datatype EdSignature = EdSignature(bytes: Bytes)

  /** Key and signature parsing, Keccak-256, secp256k1 ECDSA, Ed25519 and BLAKE2b-256. */
  datatype Crypto = Crypto(
    /** `EcdsaPublic::from_str`; `None` when the text is not a key. */
    ecdsaPublicFromStr: string -> Option<EcdsaPublic>,
    /** `EcdsaSignature::from_slice`; `None` when the bytes are not a signature. */
    ecdsaSignatureFromSlice: Bytes -> Option<EcdsaSignature>,
    keccak256: Bytes -> Hash32,
    /** `Signature::verify(message, public)`. */
    ecdsaVerify: (EcdsaSignature, Bytes, EcdsaPublic) -> bool,
    /** `Signature::recover(message)`; `None` when no key can be recovered. */
    ecdsaRecover: (EcdsaSignature, Bytes) -> Option<EcdsaPublic>,
    edPublicFromStr: string -> Option<EdPublic>,
    edSignatureFromSlice: Bytes -> Option<EdSignature>,
    edVerify: (EdSignature, Bytes, EdPublic) -> bool,
    blake2b256: Bytes -> Hash32
  )

  /** The transaction request handed to the EVM transaction builder. */
  datatype TxRequest = TxRequest(to: Bytes, value: nat, chainId: Option<nat>)

  /** Building and encoding an unsigned EVM transaction. */
  datatype Codec = Codec(
    /** Whether `build_unsigned` succeeds on the request. */
    buildUnsigned: TxRequest -> bool,
    /** The EIP-7702 encoding of the built transaction; `None` when it is not EIP-7702. */
    eip7702Encode: TxRequest -> Option<Bytes>
  )

  /**
   The broadcast of a signed payload: decoding the payload, attaching the signature and
   `send_raw_transaction`. `None` is any failure of those; `Some(h)` the transaction hash.
   */
  datatype Chain = Chain(sendRawTransaction: (ChainSupported, Bytes, Bytes) -> Option<Hash32>)

  /** The local saved-peer table, the remote peer registry and the libp2p parsers. */
  datatype Peers = Peers(
    /** `get_saved_user_peers(address)`; `None` when the lookup fails. */
    savedPeer: string -> Option<SavedPeer>,
    /** `list_all_peers()`; `None` when the remote registry call fails. */
    remotePeers: Option<seq<Discovery>>,
    isMultiaddr: string -> bool,
    isPeerId: string -> bool
  )

  /** Everything outside the core, as seen by one handler invocation. */
  datatype World = World(crypto: Crypto, codec: Codec, chain: Chain, peers: Peers)
}

=== FILE: main_service.dfy ===
/**
 The main service's decisions for one transaction: the sender-confirmed handler that either
 submits a signed transfer or builds the payload for signing, the handling of a receiver's
 response arriving over the swarm, the peer resolution of a new transaction, and the dispatch
 of records coming back from the rpc layer by status.
 */
module MainService {
  import opened Types
  import opened Externals
  import opened TxProcessing
  import opened Effects

  /** The `who` argument the sender-confirmed handler passes. */
  const Sender: string := "Sender"

  // ---------------------------------------------------------------------------------------
  // Gates
  // ---------------------------------------------------------------------------------------

  /** The receiver gate: the receiver signed its own address and the signature is accepted. */
  predicate ReceiverGatePassed(c: Crypto, tx: TxStateMachine) {
    tx.recvSignature.Some? && Accepts(c, tx.network, tx.receiverAddress, tx.recvSignature.value, tx.receiverAddress)
  }

  /** The sender gate: the record is signed and the sender check accepts the signature. */
  predicate SenderGatePassed(c: Crypto, tx: TxStateMachine) {
    tx.signedCallPayload.Some? && Accepts(c, tx.network, tx.receiverAddress, tx.signedCallPayload.value, tx.senderAddress)
  }

  /** `b` hands to the network exactly the payload and signature of the record `call` submits. */
  predicate BroadcastOf(call: Effect, b: Effect) {
    && call.CallSubmitTx?
    && ReachesNetwork(call.tx)
    && b == Broadcast(call.tx.network, call.tx.callPayload.value, call.tx.signedCallPayload.value)
  }

  /**
   Funds move only through the gate: every call to `submit_tx` is on a record that passed the
   sender gate, and every broadcast directly follows such a call and carries its record's
   payload and signature.
   */
  predicate SubmissionsGated(c: Crypto, effects: seq<Effect>) {
    && (forall i :: 0 <= i < |effects| && effects[i].CallSubmitTx? ==> SenderGatePassed(c, effects[i].tx))
    && (forall i :: 0 <= i < |effects| && effects[i].Broadcast? ==> 0 < i && BroadcastOf(effects[i - 1], effects[i]))
  }

  /** The row recorded for a transaction that failed a gate: no hash, not successful. */
  function FailedRecord(tx: TxStateMachine): DbTxStateMachine {
    DbTxStateMachine([], tx.amount, tx.network, false)
  }

  // ---------------------------------------------------------------------------------------
  // handle_sender_confirmed_tx_state
  // ---------------------------------------------------------------------------------------

  /** The effects of calling `submit_tx`: the call, then the broadcast when the checks let it through. */
  function SubmitEffects(tx: TxStateMachine): (r: seq<Effect>)
    ensures 1 <= |r| <= 2 && r[0] == CallSubmitTx(tx)
    ensures |r| == 2 <==> ReachesNetwork(tx)
    ensures |r| == 2 ==> BroadcastOf(r[0], r[1])
  {
    [CallSubmitTx(tx)] +
    (if ReachesNetwork(tx) then [Broadcast(tx.network, tx.callPayload.value, tx.signedCallPayload.value)] else [])
  }

  /**
   The broadcast effect is exactly the network's part in `submit_tx`: it is recorded for a
   record precisely when some two networks could make `submit_tx` answer differently on it.
   */
  lemma BroadcastIffNetworkConsulted(tx: TxStateMachine)
    ensures |SubmitEffects(tx)| == 2 <==> exists ch1: Chain, ch2: Chain :: SubmitTx(ch1, tx) != SubmitTx(ch2, tx)
  {
    if ReachesNetwork(tx) {
      var h: Hash32 := seq(32, _ => 0);
      var refusing := Chain((n: ChainSupported, p: Bytes, s: Bytes) => None);
      var accepting := Chain((n: ChainSupported, p: Bytes, s: Bytes) => Some(h));
      assert SubmitTx(refusing, tx).Err? && SubmitTx(accepting, tx).Ok?;
    } else {
      forall ch1: Chain, ch2: Chain
        ensures SubmitTx(ch1, tx) == SubmitTx(ch2, tx)
      {
        SubmitTxChecksBeforeNetwork(ch1, ch2, tx);
      }
    }
  }

  /**
   Submission of a record that passed the sender gate: on success the record is marked passed
   with the hash, forwarded, and a successful row with that hash is written; on error it is
   marked failed and forwarded, and nothing is written.
   */
  function Submission(chain: Chain, tx: TxStateMachine): (r: Outcome)
    ensures |r.effects| >= 1 && r.effects[0] == CallSubmitTx(tx)
    ensures forall i :: 1 <= i < |r.effects| ==> !r.effects[i].CallSubmitTx?
    ensures forall i :: 0 <= i < |r.effects| && r.effects[i].Broadcast? ==> 0 < i && BroadcastOf(r.effects[i - 1], r.effects[i])
    ensures r.exit.Panicked? <==> SubmitTx(chain, tx).Panic?
    ensures SubmitTx(chain, tx).Ok? ==>
              var hash := SubmitTx(chain, tx).value;
              && MarkTx(TxSubmissionPassed(hash)) in r.effects
              && SendToRpc(tx) in r.effects
              && UpdateSuccessTx(DbTxStateMachine(hash, tx.amount, tx.network, true)) in r.effects
    ensures SubmitTx(chain, tx).Err? ==>
              MarkTx(TxSubmissionFailed) in r.effects && SendToRpc(tx) in r.effects && NoDbWrite(r.effects)
  {
    var call := SubmitEffects(tx);
    match SubmitTx(chain, tx)
    case Panic(reason) => Outcome(call, Panicked(reason))
    case Err(_) => Outcome(call + [MarkTx(TxSubmissionFailed), SendToRpc(tx)], Completed)
    case Ok(hash) =>
      Outcome(call + [MarkTx(TxSubmissionPassed(hash)), SendToRpc(tx),
                      UpdateSuccessTx(DbTxStateMachine(hash, tx.amount, tx.network, true))], Completed)
  }

  /**
   A signed sender-confirmed record: submitted only when the sender check accepts it, otherwise
   marked sender-confirmation-failed and forwarded. This is the branch with the worker's lock
   released once the check has returned; `HandleSignedAsWritten` is the branch as written.
   */
  function HandleSigned(w: World, tx: TxStateMachine): (r: Outcome)
    requires tx.signedCallPayload.Some?
    ensures SubmissionsGated(w.crypto, r.effects)
    ensures forall i :: 0 <= i < |r.effects| && r.effects[i].CallSubmitTx? ==> r.effects[i].tx == tx
    ensures SenderGatePassed(w.crypto, tx) && tx.network.IsEvm() ==> 0 < |r.effects| && r.effects[0] == CallSubmitTx(tx)
    ensures !r.exit.Failed?
  {
    match ValidateReceiverSenderAddress(w.crypto, tx, Sender)
    case Panic(reason) => Outcome([], Panicked(reason))
    case Err(_) => Outcome([MarkTx(SenderConfirmationFailed), SendToRpc(tx)], Completed)
    case Ok(_) => Submission(w.chain, tx)
  }

  /**
   The signed branch as the code is written: the worker's lock, taken for the sender check in
   the `if let` scrutinee, is still held in the branch taken when the check passes, and that
   branch locks the same (non-reentrant) worker again to call `submit_tx`, so it waits forever.
   A failed check or a panic ends as in `HandleSigned`.
   */
  function HandleSignedAsWritten(w: World, tx: TxStateMachine): (r: Outcome)
    requires tx.signedCallPayload.Some?
    ensures NoSubmission(r.effects)
    ensures r.exit.Blocked? <==> ValidateReceiverSenderAddress(w.crypto, tx, Sender).Ok?
    ensures !r.exit.Blocked? ==> r == HandleSigned(w, tx)
  {
    match ValidateReceiverSenderAddress(w.crypto, tx, Sender)
    case Panic(reason) => Outcome([], Panicked(reason))
    case Err(_) => Outcome([MarkTx(SenderConfirmationFailed), SendToRpc(tx)], Completed)
    case Ok(_) => Outcome([], Blocked)
  }

  /**
   An unsigned sender-confirmed record: its multi-id is checked, then its payload is built and
   forwarded for signing, or the failure is recorded and the record forwarded unchanged.
   */
  function HandleUnsigned(w: World, tx: TxStateMachine): (r: Outcome)
    ensures NoSubmission(r.effects)
    ensures r.exit.Failed? ==> r.exit.error in {UnsignedBuildFailed, Eip7702ConversionFailed}
    ensures (CallCreateTx(tx) in r.effects) <==> ValidateMultiId(w.crypto, tx)
    ensures ValidateMultiId(w.crypto, tx) && CreateTx(w.codec, tx).Ok? ==>
              r == Outcome([CallCreateTx(tx), SendToRpc(CreateTx(w.codec, tx).value)], Completed)
    ensures ValidateMultiId(w.crypto, tx) && CreateTx(w.codec, tx).Err? ==>
              r == Outcome([CallCreateTx(tx)], Failed(CreateTx(w.codec, tx).error))
  {
    if !ValidateMultiId(w.crypto, tx) then
      Outcome([UpdateFailedTx(FailedRecord(tx)), SendToRpc(tx)], Completed)
    else
      var call := [CallCreateTx(tx)];
      match CreateTx(w.codec, tx)
      case Panic(reason) => Outcome(call, Panicked(reason))
      case Err(e) => Outcome(call, Failed(e))
      case Ok(built) => Outcome(call + [SendToRpc(built)], Completed)
  }

  /**
   The last stage of a transaction on the sender's node. A signed record is checked against
   the sender gate and submitted only if it passes; an unsigned one has its multi-id checked
   and then either gets its payload built for signing or is recorded as failed.
   */
  function HandleSenderConfirmed(w: World, tx: TxStateMachine): (r: Outcome)
    ensures SubmissionsGated(w.crypto, r.effects)
    ensures forall i :: 0 <= i < |r.effects| && r.effects[i].CallSubmitTx? ==> r.effects[i].tx == tx
    ensures SenderGatePassed(w.crypto, tx) && tx.network.IsEvm() ==> 0 < |r.effects| && r.effects[0] == CallSubmitTx(tx)
    ensures tx.signedCallPayload.None? ==> NoSubmission(r.effects)
    ensures r.exit.Failed? ==> tx.signedCallPayload.None? && r.exit.error in {UnsignedBuildFailed, Eip7702ConversionFailed}
  {
    if tx.signedCallPayload.Some? then HandleSigned(w, tx) else HandleUnsigned(w, tx)
  }

  /** The sender-confirmed handler as the code is written, with the blocking signed branch. */
  function HandleSenderConfirmedAsWritten(w: World, tx: TxStateMachine): (r: Outcome)
    ensures NoSubmission(r.effects)
    ensures r.exit.Blocked? <==> SenderGatePassed(w.crypto, tx)
    ensures !r.exit.Blocked? ==> r == HandleSenderConfirmed(w, tx)
  {
    if tx.signedCallPayload.Some? then HandleSignedAsWritten(w, tx) else HandleUnsigned(w, tx)
  }

  // ---------------------------------------------------------------------------------------
  // handle_swarm_event_messages, Response arm
  // ---------------------------------------------------------------------------------------

  /**
   A receiver's response arrives at the sender: the outbound request id is stored, then the
   receiver gate decides between marking it passed, or marking it failed and recording the
   failure; either way the record is forwarded to the rpc layer once.
   */
  function HandleSwarmResponse(c: Crypto, decoded: TxStateMachine, outboundReqId: u64): (r: Outcome)
    ensures NoSubmission(r.effects)
    ensures r.exit.Completed? || r.exit.Panicked?
    ensures r.exit.Completed? ==> SendToRpc(decoded.(outboundReqId := Some(outboundReqId))) in r.effects
    ensures r.exit.Completed? ==> (NoDbWrite(r.effects) <==> ReceiverGatePassed(c, decoded))
    ensures r.exit.Completed? && !ReceiverGatePassed(c, decoded) ==>
              MarkTx(RecvConfirmationFailed) in r.effects && UpdateFailedTx(FailedRecord(decoded)) in r.effects
  {
    var tx := decoded.(outboundReqId := Some(outboundReqId));
    match ValidateReceiverSenderAddress(c, tx, Receiver)
    case Panic(reason) => Outcome([], Panicked(reason))
    case Ok(_) => Outcome([MarkTx(RecvConfirmationPassed), SendToRpc(tx)], Completed)
    case Err(_) =>
      var effects := [MarkTx(RecvConfirmationFailed), UpdateFailedTx(FailedRecord(tx)), SendToRpc(tx)];
      assert effects[1].IsDbWrite();
      Outcome(effects, Completed)
  }

  // ---------------------------------------------------------------------------------------
  // handle_genesis_tx_state
  // ---------------------------------------------------------------------------------------

  /** Index of the first registry entry that claims `target` among its accounts. */
  function FindPeer(entries: seq<Discovery>, target: string): (r: Option<nat>)
    ensures r.Some? ==> r.value < |entries| && target in entries[r.value].accountIds
    ensures r.Some? ==> forall j :: 0 <= j < r.value ==> target !in entries[j].accountIds
    ensures r.None? ==> forall j :: 0 <= j < |entries| ==> target !in entries[j].accountIds
    decreases |entries|
  {
    if |entries| == 0 then None
    else if target in entries[0].accountIds then Some(0)
    else
      match FindPeer(entries[1..], target)
      case None => None
      case Some(k) => Some(k + 1)
  }

  /**
   Contact a peer whose multi-address has already parsed: once its id parses, run `prefix`,
   dial the peer and send it the record; an id that does not parse ends the handler with an
   error before anything is done.
   */
  function ContactPeer(peers: Peers, prefix: seq<Effect>, peerId: string, multiAddr: string, tx: TxStateMachine): (r: Outcome)
    ensures r.exit.Completed? <==> peers.isPeerId(peerId)
    ensures r.exit.Completed? ==> r.effects == prefix + [Dial(peerId, multiAddr), SendRequest(peerId, multiAddr, tx)]
    ensures !r.exit.Completed? ==> r == Outcome([], Failed(PeerIdInvalid))
  {
    if !peers.isPeerId(peerId) then Outcome([], Failed(PeerIdInvalid))
    else Outcome(prefix + [Dial(peerId, multiAddr), SendRequest(peerId, multiAddr, tx)], Completed)
  }

  /**
   A new transaction on the sender's node: the receiver's peer is taken from the local saved
   peers, or else from the first remote registry entry claiming the receiver address (which is
   then saved locally); the peer is dialed and sent the record. No claiming peer, no contact.
   */
  function HandleGenesis(peers: Peers, tx: TxStateMachine): (r: Outcome)
    ensures peers.savedPeer(tx.receiverAddress).None? && peers.remotePeers.None? ==>
              r == Outcome([], Failed(PeerListUnavailable))
    ensures NoSubmission(r.effects)
    ensures NoDbWrite(r.effects)
    ensures forall i :: 0 <= i < |r.effects| ==> !r.effects[i].SendToRpc?
  {
    var target := tx.receiverAddress;
    match peers.savedPeer(target)
    case Some(acc) =>
      if !peers.isMultiaddr(acc.multiAddr) then Outcome([], Failed(MultiAddrInvalid))
      else ContactPeer(peers, [], acc.nodeId, acc.multiAddr, tx)
    case None =>
      match peers.remotePeers
      case None => Outcome([], Failed(PeerListUnavailable))
      case Some(entries) =>
        if |entries| == 0 then Outcome([], Completed)
        else
          match FindPeer(entries, target)
          case None => Outcome([], Completed)
          case Some(k) =>
            var entry := entries[k];
            match entry.multiAddr
            case None => Outcome([], Panicked(MissingMultiAddr))
            case Some(multiAddr) =>
              if !peers.isMultiaddr(multiAddr) then Outcome([], Failed(MultiAddrInvalid))
              else
                match entry.peerId
                case None => Outcome([], Panicked(MissingPeerId))
                case Some(peerId) => ContactPeer(peers, [RecordSavedPeer(entry)], peerId, multiAddr, tx)
  }

  // ---------------------------------------------------------------------------------------
  // handle_incoming_rpc_tx_updates
  // ---------------------------------------------------------------------------------------

  /** One record coming back from the rpc layer, handled according to its status. */
  function HandleRpcTxUpdate(w: World, tx: TxStateMachine): (r: Outcome)
    ensures SubmissionsGated(w.crypto, r.effects)
    ensures !tx.status.SenderConfirmed? ==> NoSubmission(r.effects)
    ensures tx.status.NetConfirmed? ==> r == Outcome([], Panicked(Unimplemented))
    ensures tx.status.Other? ==> r == Outcome([], Completed)
  {
    match tx.status
    case Genesis => HandleGenesis(w.peers, tx)
    case RecvAddrConfirmed =>
      (match tx.inboundReqId
       case None => Outcome([], Panicked(MissingInboundReqId))
       case Some(id) => Outcome([SendResponse(id, tx)], Completed))
    case NetConfirmed => Outcome([], Panicked(Unimplemented))
    case SenderConfirmed => HandleSenderConfirmed(w, tx)
    case Other(_) => Outcome([], Completed)
  }

  /**
   How `?` ends the loop: the outcomes of successive handlers up to and including the first
   one that does not complete; if every handler completes, all of them.
   */
  function StopAtFailure(outs: seq<Outcome>): (r: seq<Outcome>)
    ensures |r| <= |outs| && r == outs[..|r|]
    ensures forall k :: 0 <= k < |r| - 1 ==> r[k].exit.Completed?
    ensures |r| < |outs| ==> 0 < |r| && !r[|r| - 1].exit.Completed?
  {
    if |outs| == 0 then []
    else if !outs[0].exit.Completed? then [outs[0]]
    else
      var rest := StopAtFailure(outs[1..]);
      assert outs[..1 + |rest|] == [outs[0]] + outs[1..][..|rest|];
      [outs[0]] + rest
  }

  /**
   The update loop: records are handled in arrival order, each against the collaborators as
   they are at that point, and the loop ends at the first handler that returns an error or
   panics.
   */
  function HandleRpcTxUpdates(ws: seq<World>, txs: seq<TxStateMachine>): (r: seq<Outcome>)
    requires |ws| == |txs|
    ensures |r| <= |txs|
    ensures forall k :: 0 <= k < |r| ==> r[k] == HandleRpcTxUpdate(ws[k], txs[k])
    ensures forall k :: 0 <= k < |r| - 1 ==> r[k].exit.Completed?
    ensures |r| < |txs| ==> 0 < |r| && !r[|r| - 1].exit.Completed?
  {
    StopAtFailure(seq(|txs|, k requires 0 <= k < |txs| => HandleRpcTxUpdate(ws[k], txs[k])))
  }

  /** The dispatch as the code is written: sender-confirmed records go to the blocking handler. */
  function HandleRpcTxUpdateAsWritten(w: World, tx: TxStateMachine): (r: Outcome)
    ensures NoSubmission(r.effects)
    ensures r.exit.Blocked? <==> tx.status.SenderConfirmed? && SenderGatePassed(w.crypto, tx)
    ensures !r.exit.Blocked? ==> r == HandleRpcTxUpdate(w, tx)
  {
    if tx.status.SenderConfirmed? then HandleSenderConfirmedAsWritten(w, tx) else HandleRpcTxUpdate(w, tx)
  }

  /** The update loop as the code is written. */
  function HandleRpcTxUpdatesAsWritten(ws: seq<World>, txs: seq<TxStateMachine>): (r: seq<Outcome>)
    requires |ws| == |txs|
    ensures |r| <= |txs|
    ensures forall k :: 0 <= k < |r| ==> r[k] == HandleRpcTxUpdateAsWritten(ws[k], txs[k])
    ensures forall k :: 0 <= k < |r| - 1 ==> r[k].exit.Completed?
    ensures |r| < |txs| ==> 0 < |r| && !r[|r| - 1].exit.Completed?
  {
    StopAtFailure(seq(|txs|, k requires 0 <= k < |txs| => HandleRpcTxUpdateAsWritten(ws[k], txs[k])))
  }
}

=== FILE: properties.dfy ===
/**
 The promises of the confirmation-gating layer, stated over the effects of the handlers: a
 transfer is submitted only after it is signed and the sender gate passes, every failed gate
 leaves its failure mark or failure record and submits nothing, and the update loop keeps
 both across any number of records.
 */
module Properties {
  import opened Types
  import opened Externals
  import opened TxProcessing
  import opened Effects
  import opened MainService

  // ---------------------------------------------------------------------------------------
  // handle_sender_confirmed_tx_state
  // ---------------------------------------------------------------------------------------

  /** `submit_tx` is called on a sender-confirmed record exactly when it is signed and passes the sender gate. */
  lemma SubmitIffSenderGatePassed(w: World, tx: TxStateMachine)
    ensures CallSubmitTx(tx) in HandleSenderConfirmed(w, tx).effects <==> SenderGatePassed(w.crypto, tx)
    ensures forall e :: e in HandleSenderConfirmed(w, tx).effects && e.CallSubmitTx? ==> e == CallSubmitTx(tx)
  {
  }

  /**
   The sender-confirmed handler does not look at the receiver's confirmation: a record that
   the receiver never signed is still submitted once it passes the sender gate. Ordering the
   two confirmations is left to whatever hands records back to the loop.
   */
  lemma SubmissionIgnoresReceiverConfirmation(w: World, tx: TxStateMachine)
    requires tx.recvSignature.None? && SenderGatePassed(w.crypto, tx) && tx.network.IsEvm()
    ensures !ReceiverGatePassed(w.crypto, tx)
    ensures CallSubmitTx(tx) in HandleSenderConfirmed(w, tx).effects
  {
  }

  /**
   A signed record that fails the sender gate is marked sender-confirmation-failed and
   forwarded once, unchanged otherwise; nothing is submitted and nothing is written.
   */
  lemma SenderGateFailure(w: World, tx: TxStateMachine)
    requires tx.signedCallPayload.Some? && !tx.network.Polkadot?
    requires !SenderGatePassed(w.crypto, tx)
    ensures var r := HandleSenderConfirmed(w, tx);
            && r.exit == Completed
            && MarkTx(SenderConfirmationFailed) in r.effects
            && NoSubmission(r.effects)
            && DbRecords(r.effects) == []
            && RpcSends(r.effects) == [tx]
  {
  }

  /**
   An unsigned record whose multi-id does not match is recorded as a failure with an empty
   hash, the record's amount and network and `success` false, then forwarded unchanged;
   no payload is built and nothing is submitted.
   */
  lemma MultiIdMismatch(w: World, tx: TxStateMachine)
    requires tx.signedCallPayload.None?
    requires !ValidateMultiId(w.crypto, tx)
    ensures var r := HandleSenderConfirmed(w, tx);
            && r.exit == Completed
            && DbRecords(r.effects) == [DbTxStateMachine([], tx.amount, tx.network, false)]
            && RpcSends(r.effects) == [tx]
            && NoSubmission(r.effects)
            && forall e :: e in r.effects ==> !e.CallCreateTx?
  {
  }

  /**
   An unsigned record whose multi-id matches has its payload built; the built record, which
   differs from the input only in its call payload, is what is forwarded, and nothing is written.
   */
  lemma MultiIdMatch(w: World, tx: TxStateMachine)
    requires tx.signedCallPayload.None?
    requires ValidateMultiId(w.crypto, tx)
    ensures var r := HandleSenderConfirmed(w, tx);
            && CallCreateTx(tx) in r.effects
            && NoSubmission(r.effects)
            && DbRecords(r.effects) == []
            && (CreateTx(w.codec, tx).Ok? ==>
                  && r.exit == Completed
                  && RpcSends(r.effects) == [CreateTx(w.codec, tx).value]
                  && RpcSends(r.effects)[0].(callPayload := tx.callPayload) == tx
                  && RpcSends(r.effects)[0].callPayload.Some?)
            && (CreateTx(w.codec, tx).Err? ==> r.exit == Failed(CreateTx(w.codec, tx).error) && RpcSends(r.effects) == [])
  {
  }

  /** The effects after the `submit_tx` call, for a submission outcome. */
  function AfterSubmit(tx: TxStateMachine, s: Step<Hash32>): seq<Effect> {
    match s
    case Ok(hash) => [MarkTx(TxSubmissionPassed(hash)), SendToRpc(tx), UpdateSuccessTx(DbTxStateMachine(hash, tx.amount, tx.network, true))]
    case Err(_) => [MarkTx(TxSubmissionFailed), SendToRpc(tx)]
    case Panic(_) => []
  }

  /** Calling `submit_tx` and broadcasting neither write nor forward. */
  lemma SubmitEffectsFilters(tx: TxStateMachine)
    ensures DbRecords(SubmitEffects(tx)) == [] && RpcSends(SubmitEffects(tx)) == []
  {
  }

  /** What the effects after the call write and forward, per submission outcome. */
  lemma AfterSubmitFilters(tx: TxStateMachine, s: Step<Hash32>)
    ensures DbRecords(AfterSubmit(tx, s)) ==
              if s.Ok? then [DbTxStateMachine(s.value, tx.amount, tx.network, true)] else []
    ensures RpcSends(AfterSubmit(tx, s)) == if s.Panic? then [] else [tx]
  {
    var tail := AfterSubmit(tx, s);
    match s
    case Ok(_) =>
      assert tail == [tail[0]] + ([tail[1]] + [tail[2]]);
      FiltersCons(tail[0], [tail[1]] + [tail[2]]);
      FiltersCons(tail[1], [tail[2]]);
      FiltersCons(tail[2], []);
    case Err(_) =>
      assert tail == [tail[0]] + [tail[1]];
      FiltersCons(tail[0], [tail[1]]);
      FiltersCons(tail[1], []);
    case Panic(_) =>
  }

  /** The effects of a submission: the call, the optional broadcast, then the outcome's effects. */
  lemma SubmissionFilters(chain: Chain, tx: TxStateMachine)
    requires tx.network.IsEvm()
    ensures var s := SubmitTx(chain, tx);
            var r := Submission(chain, tx);
            && r.exit == Completed
            && r.effects == SubmitEffects(tx) + AfterSubmit(tx, s)
            && DbRecords(r.effects) == DbRecords(AfterSubmit(tx, s))
            && RpcSends(r.effects) == [tx]
  {
    var s := SubmitTx(chain, tx);
    var call := SubmitEffects(tx);
    var tail := AfterSubmit(tx, s);
    assert Submission(chain, tx).effects == call + tail;
    DbRecordsAppend(call, tail);
    RpcSendsAppend(call, tail);
    SubmitEffectsFilters(tx);
    AfterSubmitFilters(tx, s);
  }

  /** A record that passes the sender gate goes straight to submission. */
  lemma GatedRecordIsSubmitted(w: World, tx: TxStateMachine)
    requires SenderGatePassed(w.crypto, tx)
    ensures HandleSenderConfirmed(w, tx) == Submission(w.chain, tx)
  {
  }

  /** On a successful submission the passed mark, the forward and the success row come in that order. */
  lemma SubmissionOrder(chain: Chain, tx: TxStateMachine)
    requires SubmitTx(chain, tx).Ok?
    ensures var r := Submission(chain, tx);
            var hash := SubmitTx(chain, tx).value;
            exists i ::
              && 0 <= i < |r.effects| - 2
              && r.effects[i] == MarkTx(TxSubmissionPassed(hash))
              && r.effects[i + 1] == SendToRpc(tx)
              && r.effects[i + 2] == UpdateSuccessTx(DbTxStateMachine(hash, tx.amount, tx.network, true))
  {
    var r := Submission(chain, tx);
    var call := SubmitEffects(tx);
    var tail := AfterSubmit(tx, SubmitTx(chain, tx));
    assert r.effects == call + tail;
    assert r.effects[|call|] == tail[0];
    assert r.effects[|call| + 1] == tail[1];
    assert r.effects[|call| + 2] == tail[2];
  }

  /**
   After a gated submission: on success the record is marked passed with the hash, forwarded,
   and then one successful row with that same hash is written; on error it is marked failed,
   forwarded, and nothing is written.
   */
  lemma SubmissionResult(w: World, tx: TxStateMachine)
    requires SenderGatePassed(w.crypto, tx) && tx.network.IsEvm()
    ensures var r := HandleSenderConfirmed(w, tx);
            var s := SubmitTx(w.chain, tx);
            && r.exit == Completed
            && (s.Ok? ==>
                  exists i ::
                    && 0 <= i < |r.effects| - 2
                    && r.effects[i] == MarkTx(TxSubmissionPassed(s.value))
                    && r.effects[i + 1] == SendToRpc(tx)
                    && r.effects[i + 2] == UpdateSuccessTx(DbTxStateMachine(s.value, tx.amount, tx.network, true)))
            && (s.Ok? ==> DbRecords(r.effects) == [DbTxStateMachine(s.value, tx.amount, tx.network, true)])
            && (s.Err? ==> MarkTx(TxSubmissionFailed) in r.effects && DbRecords(r.effects) == [])
            && RpcSends(r.effects) == [tx]
  {
    GatedRecordIsSubmitted(w, tx);
    SubmissionFilters(w.chain, tx);
    AfterSubmitFilters(tx, SubmitTx(w.chain, tx));
    if SubmitTx(w.chain, tx).Ok? {
      SubmissionOrder(w.chain, tx);
    }
  }

  // ---------------------------------------------------------------------------------------
  // handle_swarm_event_messages, Response arm
  // ---------------------------------------------------------------------------------------

  /**
   A receiver response is forwarded to the rpc layer exactly once, carrying its outbound
   request id. It passes when the receiver gate does, with nothing written; otherwise it is
   marked failed and exactly one failure row is written. It never submits.
   */
  lemma SwarmResponseOutcome(c: Crypto, decoded: TxStateMachine, outboundReqId: u64)
    requires !(decoded.network.Polkadot? && decoded.recvSignature.Some?)
    ensures var r := HandleSwarmResponse(c, decoded, outboundReqId);
            var tx := decoded.(outboundReqId := Some(outboundReqId));
            && r.exit == Completed
            && RpcSends(r.effects) == [tx]
            && NoSubmission(r.effects)
            && (ReceiverGatePassed(c, decoded) ==> MarkTx(RecvConfirmationPassed) in r.effects && DbRecords(r.effects) == [])
            && (!ReceiverGatePassed(c, decoded) ==>
                  MarkTx(RecvConfirmationFailed) in r.effects && DbRecords(r.effects) == [FailedRecord(decoded)])
  {
    var tx := decoded.(outboundReqId := Some(outboundReqId));
    var r := HandleSwarmResponse(c, decoded, outboundReqId);
    ValidationReadsSelectedFields(c, tx, decoded, Receiver);
    var v := ValidateReceiverSenderAddress(c, tx, Receiver);
    assert v.Ok? <==> ReceiverGatePassed(c, decoded);
    if v.Ok? {
      assert r.effects == [MarkTx(RecvConfirmationPassed)] + [SendToRpc(tx)];
      FiltersCons(MarkTx(RecvConfirmationPassed), [SendToRpc(tx)]);
      FiltersCons(SendToRpc(tx), []);
    } else {
      assert v.Err?;
      var rest := [UpdateFailedTx(FailedRecord(tx))] + [SendToRpc(tx)];
      assert r.effects == [MarkTx(RecvConfirmationFailed)] + rest;
      FiltersCons(MarkTx(RecvConfirmationFailed), rest);
      FiltersCons(UpdateFailedTx(FailedRecord(tx)), [SendToRpc(tx)]);
      FiltersCons(SendToRpc(tx), []);
    }
  }

  // ---------------------------------------------------------------------------------------
  // handle_genesis_tx_state
  // ---------------------------------------------------------------------------------------

  /** Whether some effect contacts a peer. */
  predicate ContactsPeer(effects: seq<Effect>) {
    exists i :: 0 <= i < |effects| && (effects[i].Dial? || effects[i].SendRequest?)
  }

  /** With no saved peer and no registry entry claiming the receiver address, nobody is dialed or sent anything. */
  lemma GenesisWithoutClaimingPeer(peers: Peers, tx: TxStateMachine)
    requires peers.savedPeer(tx.receiverAddress).None? && peers.remotePeers.Some?
    requires forall k :: 0 <= k < |peers.remotePeers.value| ==> tx.receiverAddress !in peers.remotePeers.value[k].accountIds
    ensures HandleGenesis(peers, tx) == Outcome([], Completed)
    ensures !ContactsPeer(HandleGenesis(peers, tx).effects)
  {
  }

  /**
   Without a saved peer, a peer is contacted only when it is the first registry entry whose
   accounts include the receiver address, and then it is saved, dialed and sent the record,
   in that order, at the entry's own address.
   */
  lemma GenesisContactsFirstClaimingPeer(peers: Peers, tx: TxStateMachine)
    requires peers.savedPeer(tx.receiverAddress).None?
    requires ContactsPeer(HandleGenesis(peers, tx).effects)
    ensures peers.remotePeers.Some?
    ensures var entries := peers.remotePeers.value;
            exists k ::
              && 0 <= k < |entries|
              && tx.receiverAddress in entries[k].accountIds
              && (forall j :: 0 <= j < k ==> tx.receiverAddress !in entries[j].accountIds)
              && entries[k].peerId.Some? && entries[k].multiAddr.Some?
              && HandleGenesis(peers, tx).effects ==
                 [RecordSavedPeer(entries[k]),
                  Dial(entries[k].peerId.value, entries[k].multiAddr.value),
                  SendRequest(entries[k].peerId.value, entries[k].multiAddr.value, tx)]
  {
  }

  /**
   With a saved peer, the registry is not consulted: the saved multi-address must parse, then
   the saved node id, and then that peer, and only it, is dialed and sent the record.
   */
  lemma GenesisUsesSavedPeer(peers: Peers, tx: TxStateMachine)
    requires peers.savedPeer(tx.receiverAddress).Some?
    ensures var acc := peers.savedPeer(tx.receiverAddress).value;
            var r := HandleGenesis(peers, tx);
            r.exit.Completed? <==> peers.isMultiaddr(acc.multiAddr) && peers.isPeerId(acc.nodeId)
    ensures var acc := peers.savedPeer(tx.receiverAddress).value;
            var r := HandleGenesis(peers, tx);
            r.exit.Completed? ==> r.effects == [Dial(acc.nodeId, acc.multiAddr), SendRequest(acc.nodeId, acc.multiAddr, tx)]
    ensures var acc := peers.savedPeer(tx.receiverAddress).value;
            !peers.isMultiaddr(acc.multiAddr) ==> HandleGenesis(peers, tx) == Outcome([], Failed(MultiAddrInvalid))
    ensures var acc := peers.savedPeer(tx.receiverAddress).value;
            peers.isMultiaddr(acc.multiAddr) && !peers.isPeerId(acc.nodeId) ==>
              HandleGenesis(peers, tx) == Outcome([], Failed(PeerIdInvalid))
  {
  }

  /**
   Without a saved peer, the first registry entry claiming the receiver address decides the
   outcome, in the order the code inspects it: a missing multi-address panics, one that does
   not parse is an error, then a missing peer id panics, one that does not parse is an error,
   and otherwise the entry is saved, dialed and sent the record.
   */
  lemma GenesisFromRegistry(peers: Peers, tx: TxStateMachine, k: nat)
    requires peers.savedPeer(tx.receiverAddress).None? && peers.remotePeers.Some?
    requires k < |peers.remotePeers.value| && tx.receiverAddress in peers.remotePeers.value[k].accountIds
    requires forall j :: 0 <= j < k ==> tx.receiverAddress !in peers.remotePeers.value[j].accountIds
    ensures var entry := peers.remotePeers.value[k];
            entry.multiAddr.None? ==> HandleGenesis(peers, tx) == Outcome([], Panicked(MissingMultiAddr))
    ensures var entry := peers.remotePeers.value[k];
            entry.multiAddr.Some? && !peers.isMultiaddr(entry.multiAddr.value) ==>
              HandleGenesis(peers, tx) == Outcome([], Failed(MultiAddrInvalid))
    ensures var entry := peers.remotePeers.value[k];
            entry.multiAddr.Some? && peers.isMultiaddr(entry.multiAddr.value) && entry.peerId.None? ==>
              HandleGenesis(peers, tx) == Outcome([], Panicked(MissingPeerId))
    ensures var entry := peers.remotePeers.value[k];
            entry.multiAddr.Some? && peers.isMultiaddr(entry.multiAddr.value) &&
            entry.peerId.Some? && !peers.isPeerId(entry.peerId.value) ==>
              HandleGenesis(peers, tx) == Outcome([], Failed(PeerIdInvalid))
    ensures var entry := peers.remotePeers.value[k];
            entry.multiAddr.Some? && peers.isMultiaddr(entry.multiAddr.value) &&
            entry.peerId.Some? && peers.isPeerId(entry.peerId.value) ==>
              HandleGenesis(peers, tx) ==
              Outcome([RecordSavedPeer(entry), Dial(entry.peerId.value, entry.multiAddr.value),
                       SendRequest(entry.peerId.value, entry.multiAddr.value, tx)], Completed)
  {
  }

  // ---------------------------------------------------------------------------------------
  // handle_incoming_rpc_tx_updates
  // ---------------------------------------------------------------------------------------

  /**
   Dispatch by status: a receiver-confirmed record is answered on exactly the inbound request
   it arrived with, and panics without one; genesis records only resolve and contact peers;
   sender-confirmed records go through the sender-confirmed handler; other statuses do nothing.
   */
  lemma DispatchByStatus(w: World, tx: TxStateMachine)
    ensures var r := HandleRpcTxUpdate(w, tx);
            && (tx.status.RecvAddrConfirmed? && tx.inboundReqId.None? ==> r.exit == Panicked(MissingInboundReqId))
            && (tx.status.RecvAddrConfirmed? && tx.inboundReqId.Some? ==>
                  r.exit == Completed && r.effects == [SendResponse(tx.inboundReqId.value, tx)])
            && (tx.status.Genesis? ==> r == HandleGenesis(w.peers, tx))
            && (tx.status.Genesis? ==> NoDbWrite(r.effects) && forall e :: e in r.effects ==> !e.SendToRpc?)
            && (tx.status.SenderConfirmed? ==> r == HandleSenderConfirmed(w, tx))
            && (!tx.status.SenderConfirmed? ==> NoSubmission(r.effects))
  {
  }

  // ---------------------------------------------------------------------------------------
  // The update loop
  // ---------------------------------------------------------------------------------------

  /** All effects of a run of the loop, in order. */
  function Flatten(outcomes: seq<Outcome>): seq<Effect> {
    if |outcomes| == 0 then [] else outcomes[0].effects + Flatten(outcomes[1..])
  }

  /** The effects of two runs one after the other are the effects of the first, then the second. */
  lemma {:induction false} FlattenAppend(a: seq<Outcome>, b: seq<Outcome>)
    ensures Flatten(a + b) == Flatten(a) + Flatten(b)
  {
    if |a| == 0 {
      assert a + b == b;
    } else {
      assert (a + b)[1..] == a[1..] + b;
      FlattenAppend(a[1..], b);
    }
  }

  /** A run whose handlers all complete does not cut the loop: the outcomes after it follow on. */
  lemma {:induction false} StopAtFailureAfterCompleted(a: seq<Outcome>, b: seq<Outcome>)
    requires forall k :: 0 <= k < |a| ==> a[k].exit.Completed?
    ensures StopAtFailure(a + b) == a + StopAtFailure(b)
  {
    if |a| > 0 {
      assert (a + b)[0] == a[0];
      assert (a + b)[1..] == a[1..] + b;
      StopAtFailureAfterCompleted(a[1..], b);
      assert a == [a[0]] + a[1..];
    } else {
      assert a + b == b;
    }
  }

  /**
   The loop resumes after records that complete: once every handler in a run completes, the
   loop's effects are that run's effects followed by the effects of the loop over what comes next.
   */
  lemma LoopResumesAfterCompleted(a: seq<Outcome>, b: seq<Outcome>)
    requires forall k :: 0 <= k < |a| ==> a[k].exit.Completed?
    ensures Flatten(StopAtFailure(a + b)) == Flatten(a) + Flatten(StopAtFailure(b))
  {
    StopAtFailureAfterCompleted(a, b);
    FlattenAppend(a, StopAtFailure(b));
  }

  /** Gated effect lists stay gated when concatenated: a broadcast never opens a list. */
  lemma GatedAppend(c: Crypto, a: seq<Effect>, b: seq<Effect>)
    requires SubmissionsGated(c, a) && SubmissionsGated(c, b)
    ensures SubmissionsGated(c, a + b)
  {
  }

  /** Running gated handlers one after another keeps the effects gated. */
  lemma {:induction false} FlattenGated(c: Crypto, outs: seq<Outcome>)
    requires forall k :: 0 <= k < |outs| ==> SubmissionsGated(c, outs[k].effects)
    ensures SubmissionsGated(c, Flatten(outs))
  {
    if |outs| > 0 {
      FlattenGated(c, outs[1..]);
      GatedAppend(c, outs[0].effects, Flatten(outs[1..]));
    }
  }

  /**
   The project's main promise over the whole loop, for a fixed choice of cryptography: across
   every record handled, `submit_tx` is only ever called on a sender-confirmed record that is
   signed and passes the sender gate, and every broadcast directly follows such a call.
   */
  lemma LoopSubmissionsGated(c: Crypto, ws: seq<World>, txs: seq<TxStateMachine>)
    requires |ws| == |txs|
    requires forall k :: 0 <= k < |ws| ==> ws[k].crypto == c
    ensures SubmissionsGated(c, Flatten(HandleRpcTxUpdates(ws, txs)))
  {
    FlattenGated(c, HandleRpcTxUpdates(ws, txs));
  }

  /** Every record the loop submits was handed to it with status sender-confirmed. */
  lemma LoopSubmitsOnlySenderConfirmed(ws: seq<World>, txs: seq<TxStateMachine>, k: nat)
    requires |ws| == |txs|
    ensures var outs := HandleRpcTxUpdates(ws, txs);
            k < |outs| && !NoSubmission(outs[k].effects) ==>
              && k < |txs|
              && txs[k].status.SenderConfirmed?
              && forall e :: e in outs[k].effects && e.CallSubmitTx? ==> e.tx == txs[k]
  {
  }

  // ---------------------------------------------------------------------------------------
  // The worker's lock held across the sender check
  // ---------------------------------------------------------------------------------------

  /**
   As written, a signed sender-confirmed record that passes the sender check is never
   submitted: the handler blocks with nothing done, where the corrected handler submits it.
   */
  lemma HeldGuardBlocksSubmission(w: World, tx: TxStateMachine)
    requires SenderGatePassed(w.crypto, tx) && tx.network.IsEvm()
    ensures HandleSenderConfirmedAsWritten(w, tx) == Outcome([], Blocked)
    ensures var r := HandleSenderConfirmed(w, tx);
            0 < |r.effects| && r.effects[0] == CallSubmitTx(tx)
  {
  }

  /** Handlers that each submit nothing submit nothing together. */
  lemma {:induction false} FlattenNoSubmission(outs: seq<Outcome>)
    requires forall k :: 0 <= k < |outs| ==> NoSubmission(outs[k].effects)
    ensures NoSubmission(Flatten(outs))
  {
    if |outs| > 0 {
      FlattenNoSubmission(outs[1..]);
      var a: seq<Effect> := outs[0].effects;
      var b: seq<Effect> := Flatten(outs[1..]);
      var ab: seq<Effect> := a + b;
      forall i | 0 <= i < |ab|
        ensures !ab[i].IsSubmission()
      {
        if i >= |a| {
          assert ab[i] == b[i - |a|];
        }
      }
      assert Flatten(outs) == ab;
    }
  }

  /**
   As written, the update loop never submits anything, and it never gets past the first
   sender-confirmed record that passes the sender check: it waits there for good.
   */
  lemma HeldGuardStallsLoop(ws: seq<World>, txs: seq<TxStateMachine>, k: nat)
    requires |ws| == |txs|
    requires k < |txs| && txs[k].status.SenderConfirmed? && SenderGatePassed(ws[k].crypto, txs[k])
    ensures NoSubmission(Flatten(HandleRpcTxUpdatesAsWritten(ws, txs)))
    ensures |HandleRpcTxUpdatesAsWritten(ws, txs)| <= k + 1
    ensures |HandleRpcTxUpdatesAsWritten(ws, txs)| == k + 1 ==> HandleRpcTxUpdatesAsWritten(ws, txs)[k].exit == Blocked
  {
    FlattenNoSubmission(HandleRpcTxUpdatesAsWritten(ws, txs));
  }
}

=== FILE: tx_processing.dfy ===
/**
 The processing worker's decision steps: checking the receiver's and the sender's
 signatures, checking the multi-id commitment, filling in the unsigned call payload, and
 the checks `submit_tx` makes before it talks to the network.
 */
module TxProcessing {
  import opened Types
  import opened Utf8
  import opened Externals

  /** The `who` argument that selects the receiver path; every other value selects the sender path. */
  const Receiver: string := "Receiver"

  /** Chain id fixed into BNB Smart Chain payloads. */
  const BnbChainId: nat := 56

  // ---------------------------------------------------------------------------------------
  // Reference definitions of what each signature scheme accepts
  // ---------------------------------------------------------------------------------------

  /**
   An ECDSA signature is accepted when the key text parses, the signature parses, it verifies
   over the Keccak-256 digest of the message, and the key recovered from it is that key.
   */
  predicate EcdsaAccepts(c: Crypto, keyText: string, sig: Bytes, msg: string) {
    var key := c.ecdsaPublicFromStr(keyText);
    var s := c.ecdsaSignatureFromSlice(sig);
    var digest := c.keccak256(AsBytes(msg));
    && key.Some?
    && s.Some?
    && c.ecdsaVerify(s.value, digest, key.value)
    && c.ecdsaRecover(s.value, digest) == Some(key.value)
  }

  /** An Ed25519 signature is accepted when key and signature parse and it verifies over the raw message bytes. */
  predicate Ed25519Accepts(c: Crypto, keyText: string, sig: Bytes, msg: string) {
    var key := c.edPublicFromStr(keyText);
    var s := c.edSignatureFromSlice(sig);
    key.Some? && s.Some? && c.edVerify(s.value, AsBytes(msg), key.value)
  }

  /** Acceptance per network; Polkadot accepts nothing (its check is not implemented). */
  predicate Accepts(c: Crypto, network: ChainSupported, keyText: string, sig: Bytes, msg: string) {
    match network
    case Ethereum | Bnb => EcdsaAccepts(c, keyText, sig, msg)
    case Solana => Ed25519Accepts(c, keyText, sig, msg)
    case Polkadot => false
  }

  // ---------------------------------------------------------------------------------------
  // validate_receiver_sender_address
  // ---------------------------------------------------------------------------------------

  function SelectedSignature(tx: TxStateMachine, who: string): Option<Bytes> {
    if who == Receiver then tx.recvSignature else tx.signedCallPayload
  }

  function SelectedMessage(tx: TxStateMachine, who: string): string {
    if who == Receiver then tx.receiverAddress else tx.senderAddress
  }

  /** The ECDSA check of the EVM networks, failing with the first condition that does not hold. */
  function VerifyEcdsa(c: Crypto, keyText: string, sig: Bytes, msg: string): (r: Step<()>)
    ensures r.Ok? <==> EcdsaAccepts(c, keyText, sig, msg)
    ensures !r.Panic?
    ensures c.ecdsaPublicFromStr(keyText).None? ==> r == Err(EcdsaKeyInvalid)
    ensures c.ecdsaPublicFromStr(keyText).Some? && c.ecdsaSignatureFromSlice(sig).None? ==>
              r == Err(EcdsaSignatureInvalid)
  {
    match c.ecdsaPublicFromStr(keyText)
    case None => Err(EcdsaKeyInvalid)
    case Some(key) =>
      var digest := c.keccak256(AsBytes(msg));
      match c.ecdsaSignatureFromSlice(sig)
      case None => Err(EcdsaSignatureInvalid)
      case Some(s) =>
        if !c.ecdsaVerify(s, digest, key) then Err(EcdsaVerificationFailed)
        else
          match c.ecdsaRecover(s, digest)
          case None => Err(EcdsaRecoveryFailed)
          case Some(recovered) =>
            if recovered == key then Ok(()) else Err(EcdsaRecoveredKeyMismatch)
  }

  /** The Ed25519 check of Solana, failing with the first condition that does not hold. */
  function VerifyEd25519(c: Crypto, keyText: string, sig: Bytes, msg: string): (r: Step<()>)
    ensures r.Ok? <==> Ed25519Accepts(c, keyText, sig, msg)
    ensures !r.Panic?
    ensures c.edPublicFromStr(keyText).None? ==> r == Err(Ed25519KeyInvalid)
    ensures c.edPublicFromStr(keyText).Some? && c.edSignatureFromSlice(sig).None? ==>
              r == Err(Ed25519SignatureInvalid)
  {
    match c.edPublicFromStr(keyText)
    case None => Err(Ed25519KeyInvalid)
    case Some(key) =>
      match c.edSignatureFromSlice(sig)
      case None => Err(Ed25519SignatureInvalid)
      case Some(s) =>
        if c.edVerify(s, AsBytes(msg), key) then Ok(()) else Err(Ed25519VerificationFailed)
  }

  /**
   Checks the receiver's signature over the receiver address (`who == "Receiver"`) or the
   sender's signature over the sender address (any other `who`). On every network the
   verifying key is parsed from the receiver address.
   */
  function ValidateReceiverSenderAddress(c: Crypto, tx: TxStateMachine, who: string): (r: Step<()>)
    ensures who == Receiver && tx.recvSignature.None? ==> r == Err(ReceiverDidNotSign)
    ensures who != Receiver && tx.signedCallPayload.None? ==> r == Err(SenderDidNotSign)
    ensures who == Receiver ==>
              (r.Ok? <==> tx.recvSignature.Some? &&
                          Accepts(c, tx.network, tx.receiverAddress, tx.recvSignature.value, tx.receiverAddress))
    ensures who != Receiver ==>
              (r.Ok? <==> tx.signedCallPayload.Some? &&
                          Accepts(c, tx.network, tx.receiverAddress, tx.signedCallPayload.value, tx.senderAddress))
    ensures r.Panic? <==> tx.network.Polkadot? && SelectedSignature(tx, who).Some?
    ensures r.Panic? ==> r.reason == Unimplemented
  {
    var isReceiver := who == Receiver;
    match SelectedSignature(tx, who)
    case None => Err(if isReceiver then ReceiverDidNotSign else SenderDidNotSign)
    case Some(sig) =>
      var msg := SelectedMessage(tx, who);
      match tx.network
      case Polkadot => Panic(Unimplemented)
      case Ethereum | Bnb => VerifyEcdsa(c, tx.receiverAddress, sig, msg)
      case Solana => VerifyEd25519(c, tx.receiverAddress, sig, msg)
  }

  /** With the selected signature absent the verdict is the same under every choice of cryptography. */
  lemma AbsentSignatureIgnoresCrypto(c1: Crypto, c2: Crypto, tx: TxStateMachine, who: string)
    requires SelectedSignature(tx, who).None?
    ensures ValidateReceiverSenderAddress(c1, tx, who) == ValidateReceiverSenderAddress(c2, tx, who)
    ensures ValidateReceiverSenderAddress(c1, tx, who).Err?
  {
  }

  /**
   The verdict depends only on the network, the receiver address, and the selected signature
   and message: two records that agree on those get the same verdict.
   */
  lemma ValidationReadsSelectedFields(c: Crypto, a: TxStateMachine, b: TxStateMachine, who: string)
    requires a.network == b.network && a.receiverAddress == b.receiverAddress
    requires SelectedSignature(a, who) == SelectedSignature(b, who)
    requires SelectedMessage(a, who) == SelectedMessage(b, who)
    ensures ValidateReceiverSenderAddress(c, a, who) == ValidateReceiverSenderAddress(c, b, who)
  {
  }

  // ---------------------------------------------------------------------------------------
  // validate_multi_id
  // ---------------------------------------------------------------------------------------

  /** Whether the stored multi-id is the BLAKE2b-256 hash of the sender's then the receiver's address bytes. */
  function ValidateMultiId(c: Crypto, tx: TxStateMachine): (r: bool)
    ensures r <==> c.blake2b256(AsBytes(tx.senderAddress + tx.receiverAddress)) == tx.multiId
  {
    AsBytesAppend(tx.senderAddress, tx.receiverAddress);
    var senderRecv := AsBytes(tx.senderAddress) + AsBytes(tx.receiverAddress);
    c.blake2b256(senderRecv) == tx.multiId
  }

  function SwapAddresses(tx: TxStateMachine): TxStateMachine {
    tx.(senderAddress := tx.receiverAddress, receiverAddress := tx.senderAddress)
  }

  /** A digest other than `h`. */
  function OtherDigest(h: Hash32): (r: Hash32)
    ensures r != h
  {
    assert h == [h[0]] + h[1..];
    (if h[0] == 0 then [1] else [0]) + h[1..]
  }

  /**
   The order of the concatenation matters: whenever the two orders give different bytes, some
   hash function accepts the record and rejects it with sender and receiver exchanged.
   */
  lemma MultiIdIsOrderSensitive(c: Crypto, tx: TxStateMachine)
    requires AsBytes(tx.senderAddress) + AsBytes(tx.receiverAddress) !=
             AsBytes(tx.receiverAddress) + AsBytes(tx.senderAddress)
    ensures exists h: Bytes -> Hash32 ::
              ValidateMultiId(c.(blake2b256 := h), tx) && !ValidateMultiId(c.(blake2b256 := h), SwapAddresses(tx))
  {
    var forward := AsBytes(tx.senderAddress) + AsBytes(tx.receiverAddress);
    var h := (b: Bytes) => if b == forward then tx.multiId else OtherDigest(tx.multiId);
    var c' := c.(blake2b256 := h);
    AsBytesAppend(tx.senderAddress, tx.receiverAddress);
    AsBytesAppend(tx.receiverAddress, tx.senderAddress);
    assert ValidateMultiId(c', tx);
    assert !ValidateMultiId(c', SwapAddresses(tx));
  }

  // ---------------------------------------------------------------------------------------
  // create_tx
  // ---------------------------------------------------------------------------------------

  /** The chain id the builder is given: none on Ethereum, 56 on BNB Smart Chain. */
  function ChainIdFor(network: ChainSupported): Option<nat> {
    if network.Bnb? then Some(BnbChainId) else None
  }

  /** The transfer request for a record: to the receiver address bytes, of the record's amount. */
  function RequestFor(tx: TxStateMachine): TxRequest {
    TxRequest(AsBytes(tx.receiverAddress), tx.amount, ChainIdFor(tx.network))
  }

  /**
   Fills in the unsigned EIP-7702 call payload of an Ethereum or BNB transfer. The receiver
   address bytes must be exactly an EVM address long (20 bytes), otherwise the conversion
   panics; Polkadot and Solana are not implemented.
   */
  function CreateTx(codec: Codec, tx: TxStateMachine): (r: Step<TxStateMachine>)
    ensures !tx.network.IsEvm() ==> r == Panic(Unimplemented)
    ensures tx.network.IsEvm() ==> (r.Panic? <==> |AsBytes(tx.receiverAddress)| != 20)
    ensures r.Panic? ==> r.reason in {Unimplemented, AddressLength}
    ensures r.Err? ==> r.error in {UnsignedBuildFailed, Eip7702ConversionFailed}
    ensures tx.network.IsEvm() && |AsBytes(tx.receiverAddress)| == 20 ==>
              (r.Ok? <==> codec.buildUnsigned(RequestFor(tx)) && codec.eip7702Encode(RequestFor(tx)).Some?)
    ensures tx.network.IsEvm() && |AsBytes(tx.receiverAddress)| == 20 && !codec.buildUnsigned(RequestFor(tx)) ==>
              r == Err(UnsignedBuildFailed)
    ensures tx.network.IsEvm() && |AsBytes(tx.receiverAddress)| == 20 && codec.buildUnsigned(RequestFor(tx)) &&
            codec.eip7702Encode(RequestFor(tx)).None? ==>
              r == Err(Eip7702ConversionFailed)
    ensures r.Ok? ==> tx.network.IsEvm() && r.value.callPayload.Some?
    ensures r.Ok? ==> r.value.(callPayload := tx.callPayload) == tx
    ensures r.Ok? ==>
              r.value.callPayload ==
              codec.eip7702Encode(TxRequest(AsBytes(tx.receiverAddress), tx.amount, if tx.network.Bnb? then Some(56) else None))
  {
    match tx.network
    case Ethereum | Bnb =>
      var to := AsBytes(tx.receiverAddress);
      if |to| != 20 then Panic(AddressLength)
      else
        var request := TxRequest(to, tx.amount, ChainIdFor(tx.network));
        if !codec.buildUnsigned(request) then Err(UnsignedBuildFailed)
        else
          (match codec.eip7702Encode(request)
           case None => Err(Eip7702ConversionFailed)
           case Some(encoded) => Ok(tx.(callPayload := Some(encoded))))
    case Polkadot | Solana => Panic(Unimplemented)
  }

  /** Building the payload ignores any payload already present, so building twice is building once. */
  lemma CreateTxIdempotent(codec: Codec, tx: TxStateMachine)
    requires CreateTx(codec, tx).Ok?
    ensures CreateTx(codec, CreateTx(codec, tx).value) == CreateTx(codec, tx)
  {
  }

  /** On an EVM network, an ASCII receiver address makes the conversion panic exactly when it is not 20 characters long. */
  lemma CreateTxAsciiAddress(codec: Codec, tx: TxStateMachine)
    requires tx.network.IsEvm()
    requires forall k :: 0 <= k < |tx.receiverAddress| ==> tx.receiverAddress[k] as int < 0x80
    ensures CreateTx(codec, tx).Panic? <==> |tx.receiverAddress| != 20
  {
    AsciiAsBytes(tx.receiverAddress);
  }

  // ---------------------------------------------------------------------------------------
  // submit_tx
  // ---------------------------------------------------------------------------------------

  /** Whether `submit_tx` gets as far as the network: an EVM record with both signature and payload. */
  predicate ReachesNetwork(tx: TxStateMachine) {
    tx.network.IsEvm() && tx.signedCallPayload.Some? && tx.callPayload.Some?
  }

  /**
   Submits a signed EVM payload and returns the transaction hash. A missing signature, then a
   missing payload, fail before any network call; Polkadot and Solana are not implemented.
   */
  function SubmitTx(chain: Chain, tx: TxStateMachine): (r: Step<Hash32>)
    ensures !tx.network.IsEvm() ==> r == Panic(Unimplemented)
    ensures tx.network.IsEvm() && tx.signedCallPayload.None? ==> r == Err(PayloadNotSigned)
    ensures tx.network.IsEvm() && tx.signedCallPayload.Some? && tx.callPayload.None? ==>
              r == Err(CallPayloadMissing)
    ensures r.Ok? ==> ReachesNetwork(tx)
    ensures r.Ok? ==>
              chain.sendRawTransaction(tx.network, tx.callPayload.value, tx.signedCallPayload.value) == Some(r.value)
    ensures ReachesNetwork(tx) ==>
              (r.Ok? <==> chain.sendRawTransaction(tx.network, tx.callPayload.value, tx.signedCallPayload.value).Some?)
    ensures tx.network.IsEvm() ==> !r.Panic?
    ensures ReachesNetwork(tx) && chain.sendRawTransaction(tx.network, tx.callPayload.value, tx.signedCallPayload.value).None? ==>
              r == Err(SubmissionFailed)
  {
    match tx.network
    case Ethereum | Bnb =>
      (match tx.signedCallPayload
       case None => Err(PayloadNotSigned)
       case Some(signature) =>
         match tx.callPayload
         case None => Err(CallPayloadMissing)
         case Some(payload) =>
           match chain.sendRawTransaction(tx.network, payload, signature)
           case None => Err(SubmissionFailed)
           case Some(hash) => Ok(hash))
    case Polkadot | Solana => Panic(Unimplemented)
  }

  /** A submission that does not reach the network has the same outcome whatever the network would do. */
  lemma SubmitTxChecksBeforeNetwork(chain1: Chain, chain2: Chain, tx: TxStateMachine)
    requires !ReachesNetwork(tx)
    ensures SubmitTx(chain1, tx) == SubmitTx(chain2, tx)
    ensures !SubmitTx(chain1, tx).Ok?
  {
  }

  /**
   The payload `create_tx` builds is the one `submit_tx` hands to the network once the record
   is signed: a built record with a signature always gets past the checks, and is submitted
   exactly when the network accepts that encoding with that signature.
   */
  lemma BuiltPayloadIsSubmitted(codec: Codec, chain: Chain, tx: TxStateMachine, signature: Bytes)
    requires CreateTx(codec, tx).Ok?
    ensures var signed := CreateTx(codec, tx).value.(signedCallPayload := Some(signature));
            var encoded := codec.eip7702Encode(RequestFor(tx)).value;
            && ReachesNetwork(signed)
            && (SubmitTx(chain, signed).Ok? <==> chain.sendRawTransaction(tx.network, encoded, signature).Some?)
  {
  }
}

=== FILE: types.dfy ===
/**
 The data the confirmation-gating layer works on: the transaction state machine record that
 travels between the rpc layer, the peer-to-peer swarm and the processing worker, the
 discovery entries of the remote peer registry, and the three ways a step can end
 (a value, a recoverable error, or a panic of the running task).
 */
module Types {

  datatype Option<+T> = None | Some(value: T)

  type byte = b: int | 0 <= b < 256

  type Bytes = seq<byte>

  /** A 32-byte digest (`H256`, `[u8; 32]`). */
  type Hash32 = b: Bytes | |b| == 32 witness seq(32, _ => 0)

  /** Request identifiers are `u64` hashes of the swarm's request ids. */
  type u64 = x: int | 0 <= x < 0x1_0000_0000_0000_0000

  /** The networks a transaction may target. */
  datatype ChainSupported = Polkadot | Ethereum | Bnb | Solana {
    /** The two networks whose payloads are EIP-7702 transactions and whose keys are ECDSA. */
    predicate IsEvm() {
      Ethereum? || Bnb?
    }
  }

  /**
   The lifecycle status carried by a transaction. Only the four statuses the dispatcher
   distinguishes are named; every other status of the record is `Other`.
   */
  datatype TxStatus = Genesis | RecvAddrConfirmed | NetConfirmed | SenderConfirmed | Other(name: string)

  /** The transaction state machine record, restricted to the fields the core reads or writes. */
  datatype TxStateMachine = TxStateMachine(
    senderAddress: string,
    receiverAddress: string,
    /** Hash the sender committed to over sender and receiver addresses. */
    multiId: Hash32,
    /** The receiver's signature attesting ownership of `receiverAddress`. */
    recvSignature: Option<Bytes>,
    network: ChainSupported,
    status: TxStatus,
    amount: nat,
    /** The sender's signature over the call payload, present once the sender signed. */
    signedCallPayload: Option<Bytes>,
    /** The unsigned network payload, present once it was built. */
    callPayload: Option<Bytes>,
    inboundReqId: Option<u64>,
    outboundReqId: Option<u64>
  )

  /** One entry of the remote peer registry: a peer and the accounts it claims. */
  datatype Discovery = Discovery(peerId: Option<string>, multiAddr: Option<string>, accountIds: seq<string>)

  /** A peer already saved in the local database. */
  datatype SavedPeer = SavedPeer(nodeId: string, multiAddr: string)

  /** The recoverable errors of the core, one per error return of the source. */
  datatype Error =
    | ReceiverDidNotSign
    | SenderDidNotSign
    | EcdsaKeyInvalid
    | EcdsaSignatureInvalid
    | EcdsaVerificationFailed
    | EcdsaRecoveryFailed
    | EcdsaRecoveredKeyMismatch
    | Ed25519KeyInvalid
    | Ed25519SignatureInvalid
    | Ed25519VerificationFailed
    | UnsignedBuildFailed
    | Eip7702ConversionFailed
    | PayloadNotSigned
    | CallPayloadMissing
    | SubmissionFailed
    | PeerListUnavailable
    | MultiAddrInvalid
    | PeerIdInvalid

  /** Why the running task panics instead of returning an error. */
  datatype PanicReason =
    | Unimplemented          // a `todo!()` branch
    | AddressLength          // `Address::from_slice` on a receiver address that is not 20 bytes
    | MissingInboundReqId    // `expect("no inbound req id found")`
    | MissingMultiAddr       // `unwrap()` of a discovery entry without a multi address
    | MissingPeerId          // `expect("failed to parse peerId")`

  /** The result of one step of the core: a value, an `Err`, or a panic. */
  datatype Step<+T> = Ok(value: T) | Err(error: Error) | Panic(reason: PanicReason)
}

=== FILE: utf8.dfy ===
/**
 Rust's `str::as_bytes`: the UTF-8 encoding of a string. Addresses are strings, and both the
 multi-id hash and the EVM `to` address are computed over these bytes.
 */
module Utf8 {
  import opened Types

  /** The UTF-8 encoding of one Unicode scalar value. */
  function EncodeChar(c: char): (r: Bytes)
    ensures 1 <= |r| <= 4
    ensures (c as int < 0x80) <==> |r| == 1
    ensures |r| == 1 ==> r[0] == c as int
    ensures |r| > 1 ==> 0xC0 <= r[0] && forall k :: 1 <= k < |r| ==> 0x80 <= r[k] < 0xC0
  {
    var n := c as int;
    if n < 0x80 then [n]
    else if n < 0x800 then [0xC0 + n / 0x40, 0x80 + n % 0x40]
    else if n < 0x10000 then [0xE0 + n / 0x1000, 0x80 + (n / 0x40) % 0x40, 0x80 + n % 0x40]
    else [0xF0 + n / 0x40000, 0x80 + (n / 0x1000) % 0x40, 0x80 + (n / 0x40) % 0x40, 0x80 + n % 0x40]
  }

  /** The UTF-8 encoding of a string, character by character. */
  function AsBytes(s: string): (r: Bytes)
    ensures |s| <= |r| <= 4 * |s|
    ensures |r| == 0 <==> |s| == 0
  {
    if |s| == 0 then [] else EncodeChar(s[0]) + AsBytes(s[1..])
  }

  /** Encoding commutes with concatenation: the bytes of `a + b` are the bytes of `a` then of `b`. */
  lemma {:induction false} AsBytesAppend(a: string, b: string)
    ensures AsBytes(a + b) == AsBytes(a) + AsBytes(b)
  {
    if |a| == 0 {
      assert a + b == b;
    } else {
      assert (a + b)[1..] == a[1..] + b;
      AsBytesAppend(a[1..], b);
    }
  }

  /** An ASCII string encodes to one byte per character, each equal to the character's code. */
  lemma {:induction false} AsciiAsBytes(s: string)
    requires forall k :: 0 <= k < |s| ==> s[k] as int < 0x80
    ensures |AsBytes(s)| == |s|
    ensures forall k :: 0 <= k < |s| ==> AsBytes(s)[k] == s[k] as int
  {
    if |s| > 0 {
      AsciiAsBytes(s[1..]);
    }
  }
}
